=== FILE: README.md ===
# Chat message service — a Dafny model

This project models the message and conversation service of a marketplace chat
(`src/services/message.service.ts`). The service keeps two collections:

- **conversations**: one record per `createConversation` call;
- **messages**: each message may carry an embedded offer with `accepted` and
  `cancelled` flags.

Some operations also notify other parts of the system, over one of two
channels:

- `addMessage` emits `message received` on the socket. When `hasOffer` is
  true, it first publishes the offer e-mail to the notification queue, on
  exchange `jobber-order-notification` with routing key `order-email`.
- `markMessageAsRead` and `markManyMessagesAsRead` emit `message updated` on
  the socket, and publish nothing.
- `createConversation` and `updateOffer` notify nobody.

The model is purely functional. A `Store` holds both collections as sequences
in insertion order. Each mutating operation is a function from the old store
to a `Step`, which holds the new store, the events the operation appends to
the fan-out trace (in order), and the value it returns. The queries are
functions of the store.

| file | module | contents |
|---|---|---|
| model.dfy | `ChatModel` | conversations, messages, offers, the inbox summary, e-mail payload, events, store, constants |
| seqs.dfy | `Seqs` | the `$match` filter and the distinct keys of a `$group` |
| history.dfy | `History` | the `$sort: { createdAt: 1 }` stage as a stable insertion sort |
| queries.dfy | `Queries` | `getConversation`, `getMessages`, `getUserMessages` |
| inbox.dfy | `Inbox` | `getUserConversationList`: `$match`, then `$group` with `$top`, then `$project` |
| notification.dfy | `Notification` | the offer e-mail payload of `addMessage` |
| service.dfy | `Service` | `createConversation`, `addMessage`, `updateOffer`, `markMessageAsRead`, `markManyMessagesAsRead` |
| properties.dfy | `ServiceProperties` | lemmas that relate several operations |

Behaviour of the code that the model keeps:

- `createConversation` does not check for an existing record for the pair, so
  calling it twice stores two records.
- A lookup by `_id` (`findOneAndUpdate`, `findOne`) takes the first message
  in store order with that id. With unique ids (`ChatModel.Valid`) that is the
  only one.
- `updateOffer` and `markMessageAsRead` return null for an unknown id. They do
  not raise a NotFound error.
- `markMessageAsRead` emits `message updated` even when the lookup returned
  null. The event's payload is then null. `markManyMessagesAsRead` does the
  same.
- `updateOffer` on a message whose `offer` field is missing creates an offer
  that holds only the flag it set. It does not change `hasOffer`. In the
  model, `None` always means a missing field; a field stored as null is not
  modelled.
- The offer e-mail is built from the request data, not from the stored
  document. It is sent whenever `hasOffer` is true. A missing price or
  delivery time renders as the word `undefined`, as a JavaScript template
  literal does.

Two consequences of the code that a reader might not expect:

- The inbox groups by `conversationId`, not by counterpart. Two conversation
  ids for the same pair of users give two inbox entries.
- An unknown id is not an error. `updateOffer` and `markMessageAsRead` return
  null (`None` in the model) and the store is unchanged.

## Model

| member | source | states |
|---|---|---|
| Queries.GetConversation | src/services/message.service.ts:46-55 | the result holds exactly the stored conversations between the two users in either direction, each as many times as it is stored |
| Queries.GetConversationSymmetric | src/services/message.service.ts:47-52 | swapping the two users selects the same records, each as many times; the order is not claimed |
| Queries.GetMessages | src/services/message.service.ts:97-109 | the result is a permutation of the stored messages between the two users in either direction, sorted oldest first |
| Queries.GetMessagesSymmetric | src/services/message.service.ts:98-103 | both argument orders give the same messages, each as many times; the order of messages with equal `createdAt` is not claimed |
| Queries.GetUserMessages | src/services/message.service.ts:112-118 | the result is a permutation of the messages with that conversation id, sorted oldest first |
| History.SortByCreatedAt | src/services/message.service.ts:106 | the `$sort` stage returns a permutation of its input, non-decreasing in `createdAt` |
| Inbox.Latest | src/services/message.service.ts:70 | the `$top` accumulator returns a message of the group that no message of the group is newer than |
| Inbox.MessagesOf | src/services/message.service.ts:59-66 | the `$match` stage keeps exactly the messages the user sent or received |
| Inbox.GroupKeys | src/services/message.service.ts:69 | the group keys are the user's conversation ids, each exactly once |
| Inbox.NewestOfGroup | src/services/message.service.ts:68-71 | the representative of a group has the group's id and is a newest message of the group |
| Inbox.NewestOfEach | src/services/message.service.ts:67-72 | one newest representative for each group key, in key order |
| Inbox.SummarizeAll | src/services/message.service.ts:73-90 | the projection keeps one summary per representative, in order |
| Inbox.GroupRepresentatives | src/services/message.service.ts:65-72 | one representative per conversation id of the user, each a newest message of its group; together they cover exactly the user's conversation ids |
| Inbox.GetUserConversationList | src/services/message.service.ts:58-94 | one entry per conversation id among the user's messages; ids are pairwise distinct and cover exactly those conversations; there are as many entries as distinct ids |
| Inbox.InboxEntriesAreNewest | src/services/message.service.ts:65-91 | each entry is the projection (no offer) of a stored message of the user that is newest in its conversation |
| Inbox.InboxEntriesInvolveUser | src/services/message.service.ts:59-64 | each entry has the user as sender or receiver |
| Inbox.InboxEntryOf | src/services/message.service.ts:65-91 | every message of the user has its conversation in the inbox, represented by a newest message of that conversation |
| Service.FindById | src/services/message.service.ts:159 | a lookup by `_id` finds the first message with that id, or none exactly when no message has it |
| Service.Lookup | src/services/message.service.ts:159 | `findOne` returns a stored message with that id, or null exactly when none exists |
| Service.CreateConversation | src/services/message.service.ts:8-14 | appends exactly one document with the store-assigned `_id`, the given conversation id, sender, receiver and time; earlier records and the messages unchanged; no events |
| Notification.OfferEmail | src/services/message.service.ts:22-31 | the payload carries the raw sender, the lower-cased sender as seller and receiver as buyer, the offer's price and delivery days as text (`undefined` when absent), its title and description (absent when there is no offer), and the template `offer` |
| Service.AddMessage | src/services/message.service.ts:17-44 | appends exactly one message, built from the data plus the assigned id and time, and returns it; publishes the offer e-mail first if and only if `hasOffer`, with exchange `jobber-order-notification`, key `order-email`, the log line and the payload of `Notification.OfferEmail` for the request data; then emits `message received` with the stored message |
| Service.SetOfferFlag | src/services/message.service.ts:126-128 | only the offer changes; afterwards there is an offer; the chosen flag is true and the other flag is as before; price, title, description and delivery time are kept, or all absent when there was no offer |
| Service.UpdateOffer | src/services/message.service.ts:122-133 | sets the chosen offer flag on the message with that id and changes nothing else; returns the updated message; an unknown id leaves the store unchanged and returns null; no events |
| Service.MarkMessageAsRead | src/services/message.service.ts:135-148 | sets `isRead` on the message with that id and changes nothing else; returns it; emits exactly one `message updated` with the returned value, null included |
| Service.ReadIfUnreadFromTo | src/services/message.service.ts:151-158 | on one document, only `isRead` may change, and it ends up true exactly when it was true or the message goes from `sender` to `receiver` |
| Service.MarkManyMessagesAsRead | src/services/message.service.ts:150-162 | a message ends up read exactly when it was read or goes from `sender` to `receiver`; no other field changes; returns the post-update lookup of the id and emits it once |
| ServiceProperties.CreateConversationFoundBothWays | src/services/message.service.ts:8-14 | a created conversation is returned by the pair lookup in both argument orders |
| ServiceProperties.CreateConversationExtendsLookup | src/services/message.service.ts:9-13 | one created document is added to the pair lookup exactly once, and nothing else changes in it |
| ServiceProperties.CreateConversationTwiceDuplicates | src/services/message.service.ts:9-13 | creating the same pair twice stores two documents, and the lookup returns both on top of what it returned before (two equal documents when the ids and times coincide) |
| ServiceProperties.AddMessageInHistories | src/services/message.service.ts:19 | a stored message appears in its pair's history in both argument orders and in its conversation's history |
| ServiceProperties.NewestMessageHeadsInbox | src/services/message.service.ts:65-72 | a message newer than every stored one becomes its conversation's inbox entry for its sender and for its receiver |
| ServiceProperties.AddMessageKeepsIdsUnique | src/services/message.service.ts:19 | with a fresh `_id`, message ids stay unique |
| ServiceProperties.UpdateOfferIdempotent | src/services/message.service.ts:122-133 | setting the same flag twice gives the same store and result as setting it once |
| ServiceProperties.SetOfferFlagsCommute | src/services/message.service.ts:126-128 | on one message, setting `accepted` then `cancelled` equals the other order, and both flags end up set |
| ServiceProperties.UpdateOfferAt | src/services/message.service.ts:123-131 | once the lookup by `_id` finds a position, the update rewrites that message alone, returns it and appends no event |
| ServiceProperties.OfferFlagsCommute | src/services/message.service.ts:126-128 | accepting then cancelling equals cancelling then accepting, and the offer ends up both accepted and cancelled |
| ServiceProperties.OfferIsolation | src/services/message.service.ts:126-128 | only the offer can change; it is either unchanged or the old offer with the chosen flag set and the other flag kept |
| ServiceProperties.UpdateOfferAddressesMessage | src/services/message.service.ts:123-131 | with unique ids, the message with that id gets the flag and is returned, and ids stay unique |
| ServiceProperties.MarkMessageAsReadIdempotent | src/services/message.service.ts:135-148 | marking the same message read twice gives the same store, result and events as once |
| ServiceProperties.MarkMessageAsReadAddressesMessage | src/services/message.service.ts:136-144 | with unique ids, the message with that id is marked read and returned, and ids stay unique |
| ServiceProperties.MarkManyIdempotent | src/services/message.service.ts:151-158 | running the bulk update twice gives the same step as running it once |
| ServiceProperties.MarkManyIsDirectional | src/services/message.service.ts:152 | a message not from `sender` to `receiver`, including any reply in the other direction, is untouched |
| ServiceProperties.MarkManyReadsOneSideOfHistory | src/services/message.service.ts:150-158 | afterwards every message `sender` wrote in the pair's history is read, and the replies of `receiver` are still in the history |
| ServiceProperties.MarkManyKeepsIdsUnique | src/services/message.service.ts:151-158 | the bulk update keeps message ids unique |

## Left out

- `src/routes.ts`: route wiring and the gateway-verification middleware. Its handlers only log, so there is no logic to model.
- Store-assigned `_id` and `createdAt`: they are parameters of `AddMessage` and `CreateConversation`, for messages and conversation documents alike. Nothing forces two calls to pass different `_id`s; message-id uniqueness is the separate invariant `ChatModel.Valid`, and conversation ids are not checked at all. The schema is not part of this model, so defaults such as `isRead: false` or offer flags `false` are not applied. A message is stored with the values the request supplied.
- Store failures: every store call succeeds. Connection handling and timeouts are outside the model.
- Transport: publishing to the queue and emitting on the socket become appended events. Delivery, failure and retry are not modelled, and neither is the asynchronous interleaving of concurrent requests. Each operation is atomic.
- `lowerCase` and the template-literal rendering of numbers: both come from outside this file, so they are parameters (`Notification.Conversions`). `JSON.stringify` is not modelled; the `Publish` event carries the structured payload.
- JavaScript numbers: offer price and delivery time are modelled as integers, not floating-point values.
- Service.UpdateOffer: the code accepts any string as the `type` and writes `offer.<type>`. The model takes only the two documented flags, `accepted` and `cancelled`, so a write to any other path is not modelled.
- Service.UpdateOffer: a message whose `offer` is stored as null is not modelled. On such a document the store rejects a `$set` of `offer.<flag>`, so the update fails and `updateOffer` throws; the model's `None` means a missing offer, for which the store creates one.
- Service.SetOfferFlag: on a missing offer the store creates `{ <flag>: true }`, with the other flag absent. The model's offer has no absent flags, so the other flag reads as `false`: an absent flag and `false` are not told apart.
- Equal `createdAt` values: the store does not fix the order of ties in `$sort`, the order of the `$match` output, or the choice among ties in `$top`. The model sorts stably, filters in store order and keeps the first newest message in store order. The contracts state only sortedness, multiplicities and "a newest message", so none of them depends on these choices.
- Inbox order: the order of the inbox entries is not specified. The model returns them in its own order, and no contract states it.

=== FILE: history.dfy ===
/** The `{ $sort: { createdAt: 1 } }` stage: messages oldest first. The
    model sorts stably (equal timestamps keep their store order); the store
    itself promises nothing about ties, so no contract below depends on the
    order of equal timestamps. */
module History {
  import opened ChatModel

  predicate SortedByCreatedAt(s: seq<Message>) {
    forall i, j :: 0 <= i < j < |s| ==> s[i].createdAt <= s[j].createdAt
  }

  /** A message no newer than the head of a sorted sequence can go in
      front of it. */
  lemma ConsSorted(x: Message, s: seq<Message>)
    requires SortedByCreatedAt(s)
    requires |s| > 0 ==> x.createdAt <= s[0].createdAt
    ensures SortedByCreatedAt([x] + s)
  {
  }

  /** Places `m` after every message of `s` that is not newer than it. */
  function Insert(m: Message, s: seq<Message>): (r: seq<Message>)
    requires SortedByCreatedAt(s)
    ensures SortedByCreatedAt(r)
    ensures multiset(r) == multiset(s) + multiset{m}
    ensures |r| == |s| + 1
    ensures r[0] == m || (|s| > 0 && r[0] == s[0])
  {
    if |s| == 0 then [m]
    else if s[0].createdAt <= m.createdAt then
      var rest := Insert(m, s[1..]);
      assert s == [s[0]] + s[1..];
      ConsSorted(s[0], rest);
      [s[0]] + rest
    else
      ConsSorted(m, s);
      [m] + s
  }

  /** Insertion sort by `createdAt`, ascending. */
  function SortByCreatedAt(s: seq<Message>): (r: seq<Message>)
    ensures SortedByCreatedAt(r)
    ensures multiset(r) == multiset(s)
    ensures |r| == |s|
  {
    if |s| == 0 then []
    else
      var init := s[..|s| - 1];
      assert s == init + [s[|s| - 1]];
      Insert(s[|s| - 1], SortByCreatedAt(init))
  }
}

=== FILE: inbox.dfy ===
/** `getUserConversationList`: the inbox of one user. Their messages are
    grouped by conversation id, and each group is represented by its newest
    message, projected without the offer. */
module Inbox {
  import opened ChatModel
  import opened Seqs

  predicate InvolvesUser(m: Message, u: string) {
    m.senderUsername == u || m.receiverUsername == u
  }

  /** The conversation ids of a sequence of messages, by position; used for
      the `$group` output, where every message counts. */
  function IdsOfMessages(ms: seq<Message>): set<string> {
    set i | 0 <= i < |ms| :: ms[i].conversationId
  }

  /** The conversation ids of a sequence of summaries. */
  function IdsOfSummaries(ss: seq<Summary>): set<string> {
    set i | 0 <= i < |ss| :: ss[i].conversationId
  }

  /** The conversation ids among the messages of `u`, as a set: the ids of
      the `$match` output, stated over the whole store so that contracts need
      not mention the filter. */
  function ConversationIdsOf(ms: seq<Message>, u: string): set<string> {
    set m | m in ms && InvolvesUser(m, u) :: m.conversationId
  }

  /** The `$top` accumulator sorted by `createdAt` descending: a newest
      message of `s`. Of equal timestamps the model keeps the earliest in
      store order. */
  function Latest(s: seq<Message>): (r: Message)
    requires |s| > 0
    ensures r in s
    ensures forall x :: x in s ==> x.createdAt <= r.createdAt
  {
    if |s| == 1 then s[0]
    else
      var rest := Latest(s[1..]);
      assert forall x :: x in s ==> x == s[0] || x in s[1..];
      if rest.createdAt > s[0].createdAt then rest else s[0]
  }

  /** The `$match` stage: the messages `u` sent or received. */
  function MessagesOf(ms: seq<Message>, u: string): (r: seq<Message>)
    ensures forall m :: m in r <==> m in ms && InvolvesUser(m, u)
  {
    Filter(ms, (m: Message) => InvolvesUser(m, u))
  }

  /** The `_id` keys of the `$group` stage, each once. */
  function GroupKeys(ms: seq<Message>, u: string): (r: seq<string>)
    ensures NoDuplicates(r)
    ensures forall id :: id in r <==> exists m :: m in ms && InvolvesUser(m, u) && m.conversationId == id
    ensures |r| == |ConversationIdsOf(ms, u)|
  {
    var matched := MessagesOf(ms, u);
    var r := DistinctKeys(matched, (m: Message) => m.conversationId);
    assert forall m :: m in ms && InvolvesUser(m, u) ==> m in matched;
    assert (set id | id in r) == ConversationIdsOf(ms, u);
    NoDuplicatesCardinality(r);
    r
  }

  /** `m` is a newest message of `matched` with conversation id `id`. */
  predicate NewestWithId(matched: seq<Message>, id: string, m: Message) {
    && m in matched
    && m.conversationId == id
    && forall x :: x in matched && x.conversationId == id ==> x.createdAt <= m.createdAt
  }

  /** `m` is a stored message of `u` and no stored message of `u` in the same
      conversation is newer: the newest of its group after the `$match`. */
  predicate IsNewestOfGroup(ms: seq<Message>, u: string, m: Message) {
    NewestWithId(MessagesOf(ms, u), m.conversationId, m)
  }

  /** The `$top` of one group: a newest message of `matched` with
      conversation id `id`. */
  function NewestOfGroup(matched: seq<Message>, id: string): (r: Message)
    requires exists m :: m in matched && m.conversationId == id
    ensures NewestWithId(matched, id, r)
  {
    var group := Filter(matched, (m: Message) => m.conversationId == id);
    var w :| w in matched && w.conversationId == id;
    assert w in group;
    Latest(group)
  }

  /** `NewestOfGroup` for each id of `ids`, in the same order. */
  function NewestOfEach(matched: seq<Message>, ids: seq<string>): (r: seq<Message>)
    requires forall id :: id in ids ==> exists m :: m in matched && m.conversationId == id
    ensures |r| == |ids|
    ensures forall i :: 0 <= i < |r| ==> NewestWithId(matched, ids[i], r[i])
  {
    if |ids| == 0 then []
    else
      assert ids[0] in ids;
      assert forall id :: id in ids[1..] ==> id in ids;
      [NewestOfGroup(matched, ids[0])] + NewestOfEach(matched, ids[1..])
  }

  /** The `$project` stage applied to each representative. */
  function SummarizeAll(reps: seq<Message>): (r: seq<Summary>)
    ensures |r| == |reps|
    ensures forall i :: 0 <= i < |r| ==> r[i] == Summarize(reps[i])
  {
    if |reps| == 0 then [] else [Summarize(reps[0])] + SummarizeAll(reps[1..])
  }

  /** The `$group` stage: a newest message of `u` per conversation id. */
  function GroupRepresentatives(ms: seq<Message>, u: string): (reps: seq<Message>)
    ensures |reps| == |ConversationIdsOf(ms, u)|
    ensures forall i :: 0 <= i < |reps| ==> IsNewestOfGroup(ms, u, reps[i])
    ensures forall i, j :: 0 <= i < j < |reps| ==> reps[i].conversationId != reps[j].conversationId
    ensures IdsOfMessages(reps) == ConversationIdsOf(ms, u)
  {
    var matched := MessagesOf(ms, u);
    var ids := GroupKeys(ms, u);
    assert forall id :: id in ids ==> exists m :: m in matched && m.conversationId == id by {
      forall id | id in ids
        ensures exists m :: m in matched && m.conversationId == id
      {
        var m :| m in ms && InvolvesUser(m, u) && m.conversationId == id;
        assert m in matched;
      }
    }
    var reps := NewestOfEach(matched, ids);
    RepresentativesAreNewest(ms, u, matched, ids, reps);
    RepresentativesCoverGroups(ms, u, ids, reps);
    RepresentativesDistinct(ids, reps);
    reps
  }

  lemma RepresentativesAreNewest(ms: seq<Message>, u: string, matched: seq<Message>,
                                 ids: seq<string>, reps: seq<Message>)
    requires forall m :: m in matched <==> m in ms && InvolvesUser(m, u)
    requires |reps| == |ids|
    requires forall i :: 0 <= i < |reps| ==> NewestWithId(matched, ids[i], reps[i])
    ensures forall i :: 0 <= i < |reps| ==> IsNewestOfGroup(ms, u, reps[i])
    ensures forall i :: 0 <= i < |reps| ==> reps[i].conversationId == ids[i]
  {
    forall i | 0 <= i < |reps|
      ensures IsNewestOfGroup(ms, u, reps[i])
    {
      assert NewestWithId(matched, ids[i], reps[i]);
      assert reps[i] in matched;
    }
  }

  lemma RepresentativesCoverGroups(ms: seq<Message>, u: string, ids: seq<string>, reps: seq<Message>)
    requires forall id :: id in ids <==> exists m :: m in ms && InvolvesUser(m, u) && m.conversationId == id
    requires |reps| == |ids|
    requires forall i :: 0 <= i < |reps| ==> reps[i].conversationId == ids[i]
    ensures IdsOfMessages(reps) == ConversationIdsOf(ms, u)
  {
    forall id | id in ConversationIdsOf(ms, u)
      ensures id in IdsOfMessages(reps)
    {
      assert id in ids;
      var i :| 0 <= i < |ids| && ids[i] == id;
      assert reps[i] in reps;
    }
    forall id | id in IdsOfMessages(reps)
      ensures id in ConversationIdsOf(ms, u)
    {
      var i :| 0 <= i < |reps| && reps[i].conversationId == id;
      assert ids[i] in ids;
    }
  }

  lemma RepresentativesDistinct(ids: seq<string>, reps: seq<Message>)
    requires NoDuplicates(ids)
    requires |reps| == |ids|
    requires forall i :: 0 <= i < |reps| ==> reps[i].conversationId == ids[i]
    ensures forall i, j :: 0 <= i < j < |reps| ==> reps[i].conversationId != reps[j].conversationId
  {
  }

  lemma SummariesKeepIds(reps: seq<Message>, r: seq<Summary>)
    requires |r| == |reps|
    requires forall i :: 0 <= i < |r| ==> r[i] == Summarize(reps[i])
    ensures IdsOfSummaries(r) == IdsOfMessages(reps)
    ensures forall i :: 0 <= i < |r| ==> r[i].conversationId == reps[i].conversationId
  {
    forall id | id in IdsOfMessages(reps)
      ensures id in IdsOfSummaries(r)
    {
      var i :| 0 <= i < |reps| && reps[i].conversationId == id;
      assert r[i] in r;
    }
    forall id | id in IdsOfSummaries(r)
      ensures id in IdsOfMessages(reps)
    {
      var i :| 0 <= i < |r| && r[i].conversationId == id;
      assert reps[i] in reps;
    }
  }

  /** `getUserConversationList(u)`: one summary per conversation id that
      occurs among the messages `u` sent or received (see
      `InboxEntriesAreNewest` for which message each summary projects). The
      order of the summaries is not part of the contract. */
  function GetUserConversationList(store: Store, u: string): (r: seq<Summary>)
    ensures forall i, j :: 0 <= i < j < |r| ==> r[i].conversationId != r[j].conversationId
    ensures IdsOfSummaries(r) == ConversationIdsOf(store.messages, u)
    ensures |r| == |ConversationIdsOf(store.messages, u)|
  {
    var reps := GroupRepresentatives(store.messages, u);
    var r := SummarizeAll(reps);
    SummariesKeepIds(reps, r);
    r
  }

  /** Each inbox entry is the projection of a newest message of its
      conversation among the messages of `u`. */
  lemma InboxEntriesAreNewest(store: Store, u: string)
    ensures forall s :: s in GetUserConversationList(store, u) ==>
      exists m :: IsNewestOfGroup(store.messages, u, m) && s == Summarize(m)
  {
    var reps := GroupRepresentatives(store.messages, u);
    var r := SummarizeAll(reps);
    forall s | s in r
      ensures exists m :: IsNewestOfGroup(store.messages, u, m) && s == Summarize(m)
    {
      var i :| 0 <= i < |r| && r[i] == s;
      assert IsNewestOfGroup(store.messages, u, reps[i]);
    }
  }

  /** Every inbox entry of `u` is a message `u` sent or received. */
  lemma InboxEntriesInvolveUser(store: Store, u: string)
    ensures forall s :: s in GetUserConversationList(store, u) ==> s.senderUsername == u || s.receiverUsername == u
  {
    InboxEntriesAreNewest(store, u);
  }

  /** Every message of `u` has its conversation represented in the inbox,
      by a newest message of that conversation. */
  lemma InboxEntryOf(store: Store, u: string, m: Message)
    requires m in store.messages && InvolvesUser(m, u)
    ensures exists n :: && IsNewestOfGroup(store.messages, u, n)
                        && n.conversationId == m.conversationId
                        && Summarize(n) in GetUserConversationList(store, u)
  {
    var reps := GroupRepresentatives(store.messages, u);
    var r := SummarizeAll(reps);
    assert m.conversationId in IdsOfMessages(reps) by {
      assert m.conversationId in ConversationIdsOf(store.messages, u);
    }
    var k :| 0 <= k < |reps| && reps[k].conversationId == m.conversationId;
    assert r[k] in r;
  }
}

=== FILE: model.dfy ===
/** The data model of the chat service: conversations, messages with an
    embedded offer, the in-memory store that holds both, and the fan-out
    events (queue publications and realtime emits) an operation appends. */
module ChatModel {

  /** An optional document field: `None` is a field missing from the
      document. A field stored as null is not modelled. */
  datatype Option<+T> = None | Some(value: T) {
    /** The field's value, or `absent` when the field is missing. */
    function ValueOr(absent: T): T {
      if Some? then value else absent
    }
  }

  /** A priced proposal embedded in a message. Every field is optional
      because a `$set` on one dotted path of a missing offer creates an
      offer holding that path alone; an absent flag reads as false. */
  datatype Offer = Offer(
    price: Option<int>,
    gigTitle: Option<string>,
    description: Option<string>,
    deliveryInDays: Option<int>,
    accepted: bool,
    cancelled: bool)

  /** What a `$set` on a path of a missing offer starts from: no field
      present, both flags false. */
  const EmptyOffer: Offer := Offer(None, None, None, None, false, false)

  /** The two offer paths that `updateOffer` may set. */
  datatype OfferFlag = Accepted | Cancelled

  /** A conversation record: one document per `createConversation` call,
      told apart from the others by its store-assigned `_id`. */
  datatype Conversation = Conversation(
    id: string,
    conversationId: string,
    senderUsername: string,
    receiverUsername: string,
    createdAt: int)

  /** The client-supplied part of a message, as handed to `addMessage`. */
  datatype MessageData = MessageData(
    conversationId: string,
    senderUsername: string,
    senderPicture: string,
    receiverUsername: string,
    receiverPicture: string,
    body: Option<string>,
    file: Option<string>,
    gigId: string,
    sellerId: string,
    buyerId: string,
    hasOffer: bool,
    offer: Option<Offer>,
    isRead: bool)

  /** A persisted message: the client data plus the store-assigned `_id`
      and `createdAt`. */
  datatype Message = Message(
    id: string,
    conversationId: string,
    senderUsername: string,
    senderPicture: string,
    receiverUsername: string,
    receiverPicture: string,
    body: Option<string>,
    file: Option<string>,
    gigId: string,
    sellerId: string,
    buyerId: string,
    hasOffer: bool,
    offer: Option<Offer>,
    isRead: bool,
    createdAt: int)

  /** The projection of a message that the conversation list returns:
      every message field except the offer. */
  datatype Summary = Summary(
    id: string,
    conversationId: string,
    sellerId: string,
    buyerId: string,
    receiverUsername: string,
    receiverPicture: string,
    senderUsername: string,
    senderPicture: string,
    body: Option<string>,
    file: Option<string>,
    gigId: string,
    isRead: bool,
    hasOffer: bool,
    createdAt: int)

  /** The offer e-mail payload sent to the notification service, before
      JSON encoding. */
  datatype EmailDetails = EmailDetails(
    sender: string,
    amount: string,
    buyerUsername: string,
    sellerUsername: string,
    title: Option<string>,
    description: Option<string>,
    deliveryDays: string,
    template: string)

  /** A fan-out event: a publication on the message queue, or a realtime
      emit whose payload is the (possibly null) message document. */
  datatype Event =
    | Publish(exchange: string, routingKey: string, payload: EmailDetails, logMessage: string)
    | Emit(eventName: string, message: Option<Message>)

  /** The two collections, in insertion (natural) order. */
  datatype Store = Store(conversations: seq<Conversation>, messages: seq<Message>)

  /** What an operation produces: the new store, the events it appended to
      the trace, in order, and the value it returns to its caller. */
  datatype Step<+R> = Step(store: Store, events: seq<Event>, result: R)

  const OrderExchange: string := "jobber-order-notification"
  const OrderEmailKey: string := "order-email"
  const OrderEmailLog: string := "Order email sent to notification service."
  const OfferTemplate: string := "offer"
  const MessageReceived: string := "message received"
  const MessageUpdated: string := "message updated"

  /** The Mongo pair predicate: the message or conversation goes from `a`
      to `b` or from `b` to `a`. */
  predicate BetweenPair(sender: string, receiver: string, a: string, b: string) {
    (sender == a && receiver == b) || (sender == b && receiver == a)
  }

  /** Message ids are unique, as the store's `_id` generation guarantees. */
  predicate UniqueIds(ms: seq<Message>) {
    forall i, j :: 0 <= i < j < |ms| ==> ms[i].id != ms[j].id
  }

  predicate Valid(s: Store) {
    UniqueIds(s.messages)
  }

  function Summarize(m: Message): (r: Summary)
  {
    Summary(m.id, m.conversationId, m.sellerId, m.buyerId,
            m.receiverUsername, m.receiverPicture, m.senderUsername, m.senderPicture,
            m.body, m.file, m.gigId, m.isRead, m.hasOffer, m.createdAt)
  }
}

=== FILE: notification.dfy ===
/** The offer e-mail that `addMessage` hands to the notification service.
    Lower-casing (a library helper) and the template-literal rendering of a
    number are not defined here; the caller supplies them. */
module Notification {
  import opened ChatModel

  /** The two text conversions the payload applies to its fields. */
  datatype Conversions = Conversions(lowerCase: string -> string, numberText: int -> string)

  /** A template literal renders an absent value as the word "undefined". */
  function Render(n: Option<int>, conv: Conversions): string {
    match n
    case Some(v) => conv.numberText(v)
    case None => "undefined"
  }

  function OfferPrice(o: Option<Offer>): Option<int> {
    match o
    case Some(x) => x.price
    case None => None
  }

  function OfferDays(o: Option<Offer>): Option<int> {
    match o
    case Some(x) => x.deliveryInDays
    case None => None
  }

  function OfferTitle(o: Option<Offer>): Option<string> {
    match o
    case Some(x) => x.gigTitle
    case None => None
  }

  function OfferDescription(o: Option<Offer>): Option<string> {
    match o
    case Some(x) => x.description
    case None => None
  }

  /** The payload mapping: the offer's sender is the seller and its
      receiver the buyer. */
  function OfferEmail(data: MessageData, conv: Conversions): (e: EmailDetails)
    ensures e.sender == data.senderUsername
    ensures e.sellerUsername == conv.lowerCase(data.senderUsername)
    ensures e.buyerUsername == conv.lowerCase(data.receiverUsername)
    ensures e.amount ==
      (if data.offer.Some? && data.offer.value.price.Some?
       then conv.numberText(data.offer.value.price.value) else "undefined")
    ensures e.deliveryDays ==
      (if data.offer.Some? && data.offer.value.deliveryInDays.Some?
       then conv.numberText(data.offer.value.deliveryInDays.value) else "undefined")
    ensures e.title == (if data.offer.Some? then data.offer.value.gigTitle else None)
    ensures e.description == (if data.offer.Some? then data.offer.value.description else None)
    ensures e.template == OfferTemplate
  {
    EmailDetails(
      sender := data.senderUsername,
      amount := Render(OfferPrice(data.offer), conv),
      buyerUsername := conv.lowerCase(data.receiverUsername),
      sellerUsername := conv.lowerCase(data.senderUsername),
      title := OfferTitle(data.offer),
      description := OfferDescription(data.offer),
      deliveryDays := Render(OfferDays(data.offer), conv),
      template := OfferTemplate)
  }
}

=== FILE: properties.dfy ===
/** Properties that relate several operations of the message service:
    pair symmetry after creation, idempotence, frame conditions, the
    direction of bulk read-marking, and how a new message reaches the
    histories and the inbox. */
module ServiceProperties {
  import opened ChatModel
  import opened Queries
  import opened Inbox
  import opened Service

  /** A conversation created by either side is found by the pair lookup in
      both directions. */
  lemma CreateConversationFoundBothWays(store: Store, id: string, cid: string, a: string, b: string, t: int)
    ensures Conversation(id, cid, a, b, t) in GetConversation(CreateConversation(store, id, cid, a, b, t).store, a, b)
    ensures Conversation(id, cid, a, b, t) in GetConversation(CreateConversation(store, id, cid, a, b, t).store, b, a)
  {
    var s := CreateConversation(store, id, cid, a, b, t).store;
    assert s.conversations[|store.conversations|] == Conversation(id, cid, a, b, t);
    assert Conversation(id, cid, a, b, t) in s.conversations;
  }

  /** Each created conversation adds exactly its own document to the pair
      lookup, in either argument order. */
  lemma CreateConversationExtendsLookup(store: Store, id: string, cid: string, a: string, b: string, t: int)
    ensures var s := CreateConversation(store, id, cid, a, b, t).store;
      multiset(GetConversation(s, a, b))
        == multiset(GetConversation(store, a, b)) + multiset{Conversation(id, cid, a, b, t)}
  {
    var c := Conversation(id, cid, a, b, t);
    var s := CreateConversation(store, id, cid, a, b, t).store;
    assert s.conversations == store.conversations + [c];
    var before := GetConversation(store, a, b);
    var after := GetConversation(s, a, b);
    assert forall x :: multiset(after)[x] == (multiset(before) + multiset{c})[x];
  }

  /** There is no existence check: creating the same pair twice stores two
      documents (with their own `_id`s), and the lookup returns both on top
      of what it returned before. */
  lemma CreateConversationTwiceDuplicates(store: Store, id1: string, id2: string, cid: string,
                                          a: string, b: string, t1: int, t2: int)
    ensures var s2 := CreateConversation(CreateConversation(store, id1, cid, a, b, t1).store,
                                         id2, cid, a, b, t2).store;
      multiset(GetConversation(s2, a, b))
        == multiset(GetConversation(store, a, b))
           + multiset{Conversation(id1, cid, a, b, t1), Conversation(id2, cid, a, b, t2)}
  {
    var s1 := CreateConversation(store, id1, cid, a, b, t1).store;
    CreateConversationExtendsLookup(store, id1, cid, a, b, t1);
    CreateConversationExtendsLookup(s1, id2, cid, a, b, t2);
  }

  /** A stored message shows up in its pair's history, in either argument
      order, and in its conversation's history. */
  lemma AddMessageInHistories(store: Store, data: MessageData, id: string, t: int, conv: Notification.Conversions)
    ensures var s := AddMessage(store, data, id, t, conv);
      && s.result in GetMessages(s.store, data.senderUsername, data.receiverUsername)
      && s.result in GetMessages(s.store, data.receiverUsername, data.senderUsername)
      && s.result in GetUserMessages(s.store, data.conversationId)
  {
    var s := AddMessage(store, data, id, t, conv);
    assert s.store.messages[|store.messages|] == s.result;
    assert s.result in s.store.messages;
  }

  /** A message newer than every stored one becomes the inbox entry of its
      conversation for its sender (and, symmetrically, its receiver). */
  lemma {:induction false} NewestMessageHeadsInbox(store: Store, data: MessageData, id: string, t: int,
                                                   conv: Notification.Conversions, u: string)
    requires u == data.senderUsername || u == data.receiverUsername
    requires forall m :: m in store.messages ==> m.createdAt < t
    ensures var s := AddMessage(store, data, id, t, conv);
      Summarize(s.result) in GetUserConversationList(s.store, u)
  {
    var s := AddMessage(store, data, id, t, conv);
    assert s.store.messages[|store.messages|] == s.result;
    InboxEntryOf(s.store, u, s.result);
    var n :| IsNewestOfGroup(s.store.messages, u, n) && n.conversationId == data.conversationId
      && Summarize(n) in GetUserConversationList(s.store, u);
    assert t <= n.createdAt;
    assert n !in store.messages;
    assert n == s.result;
  }

  /** With a fresh id, adding a message keeps message ids unique. */
  lemma AddMessageKeepsIdsUnique(store: Store, data: MessageData, id: string, t: int, conv: Notification.Conversions)
    requires Valid(store)
    requires forall m :: m in store.messages ==> m.id != id
    ensures Valid(AddMessage(store, data, id, t, conv).store)
  {
    var s := AddMessage(store, data, id, t, conv);
    forall i, j | 0 <= i < j < |s.store.messages|
      ensures s.store.messages[i].id != s.store.messages[j].id
    {
      if j == |store.messages| {
        assert store.messages[i] in store.messages;
      }
    }
  }

  /** Setting the same offer flag again changes nothing further. */
  lemma UpdateOfferIdempotent(store: Store, id: string, flag: OfferFlag)
    ensures var s1 := UpdateOffer(store, id, flag);
      var s2 := UpdateOffer(s1.store, id, flag);
      s2.store == s1.store && s2.result == s1.result
  {
    match FindById(store.messages, id)
    case None =>
    case Some(i) =>
      var m := SetOfferFlag(store.messages[i], flag);
      var ms := store.messages[i := m];
      FindByIdStable(store.messages, ms, id);
      assert SetOfferFlag(m, flag) == m;
      assert ms[i := m] == ms;
  }

  /** A lookup by id only depends on the ids of the messages. */
  lemma {:induction false} FindByIdStable(ms: seq<Message>, ms': seq<Message>, id: string)
    requires |ms| == |ms'|
    requires forall j :: 0 <= j < |ms| ==> ms[j].id == ms'[j].id
    ensures FindById(ms, id) == FindById(ms', id)
  {
    if |ms| > 0 && ms[0].id != id {
      FindByIdStable(ms[1..], ms'[1..], id);
    }
  }

  /** Setting both flags on one message gives the same message in either
      order. */
  lemma SetOfferFlagsCommute(m: Message)
    ensures SetOfferFlag(SetOfferFlag(m, Accepted), Cancelled) == SetOfferFlag(SetOfferFlag(m, Cancelled), Accepted)
    ensures FlagSet(SetOfferFlag(SetOfferFlag(m, Accepted), Cancelled), Accepted)
    ensures FlagSet(SetOfferFlag(SetOfferFlag(m, Accepted), Cancelled), Cancelled)
  {
  }

  /** Once the lookup has found index `i`, `updateOffer` rewrites exactly
      that message. */
  lemma UpdateOfferAt(store: Store, id: string, flag: OfferFlag, i: nat)
    requires FindById(store.messages, id) == Some(i)
    ensures i < |store.messages|
    ensures UpdateOffer(store, id, flag)
         == Step(store.(messages := store.messages[i := SetOfferFlag(store.messages[i], flag)]),
                 [], Some(SetOfferFlag(store.messages[i], flag)))
  {
  }

  /** The two offer flags are independent: setting both in either order
      reaches the same store, an offer that is both accepted and
      cancelled. */
  lemma OfferFlagsCommute(store: Store, id: string)
    ensures var ac := UpdateOffer(UpdateOffer(store, id, Accepted).store, id, Cancelled);
      var ca := UpdateOffer(UpdateOffer(store, id, Cancelled).store, id, Accepted);
      && ac.store == ca.store
      && ac.result == ca.result
      && (ac.result.Some? ==> FlagSet(ac.result.value, Accepted) && FlagSet(ac.result.value, Cancelled))
  {
    match FindById(store.messages, id)
    case None =>
    case Some(i) =>
      var m := store.messages[i];
      var a := UpdateOffer(store, id, Accepted).store;
      var c := UpdateOffer(store, id, Cancelled).store;
      UpdateOfferAt(store, id, Accepted, i);
      UpdateOfferAt(store, id, Cancelled, i);
      FindByIdStable(store.messages, a.messages, id);
      FindByIdStable(store.messages, c.messages, id);
      UpdateOfferAt(a, id, Cancelled, i);
      UpdateOfferAt(c, id, Accepted, i);
      SetOfferFlagsCommute(m);
      assert a.messages[i := SetOfferFlag(a.messages[i], Cancelled)]
          == c.messages[i := SetOfferFlag(c.messages[i], Accepted)];
  }

  /** `updateOffer(id, accepted)` leaves `cancelled` as it was, and the
      other way round; an absent offer reads as one with both flags
      false. */
  lemma OfferIsolation(store: Store, id: string, flag: OfferFlag, j: int)
    requires 0 <= j < |store.messages|
    ensures var before := store.messages[j];
      var after := UpdateOffer(store, id, flag).store.messages[j];
      var o := before.offer.ValueOr(EmptyOffer);
      && after.(offer := before.offer) == before
      && (after.offer == before.offer
          || (after.offer.Some? &&
              match flag
              case Accepted => after.offer.value == o.(accepted := true)
              case Cancelled => after.offer.value == o.(cancelled := true)))
  {
  }

  /** With unique ids, the message addressed by id is the one whose flag is
      set, and ids stay unique. */
  lemma UpdateOfferAddressesMessage(store: Store, id: string, flag: OfferFlag, j: int)
    requires Valid(store)
    requires 0 <= j < |store.messages| && store.messages[j].id == id
    ensures var s := UpdateOffer(store, id, flag);
      && FlagSet(s.store.messages[j], flag)
      && s.result == Some(s.store.messages[j])
      && Valid(s.store)
  {
    var s := UpdateOffer(store, id, flag);
    var i := FindById(store.messages, id).value;
    assert i == j;
    forall a, b | 0 <= a < b < |s.store.messages|
      ensures s.store.messages[a].id != s.store.messages[b].id
    {
      assert s.store.messages[a].id == store.messages[a].id;
      assert s.store.messages[b].id == store.messages[b].id;
    }
  }

  /** Marking one message read twice is the same as marking it once. */
  lemma MarkMessageAsReadIdempotent(store: Store, id: string)
    ensures var s1 := MarkMessageAsRead(store, id);
      var s2 := MarkMessageAsRead(s1.store, id);
      s2.store == s1.store && s2.result == s1.result && s2.events == s1.events
  {
    var s1 := MarkMessageAsRead(store, id);
    match FindById(store.messages, id)
    case None =>
    case Some(i) =>
      FindByIdStable(store.messages, s1.store.messages, id);
  }

  /** With unique ids, the message addressed by id is the one marked read,
      and ids stay unique. */
  lemma MarkMessageAsReadAddressesMessage(store: Store, id: string, j: int)
    requires Valid(store)
    requires 0 <= j < |store.messages| && store.messages[j].id == id
    ensures var s := MarkMessageAsRead(store, id);
      && s.store.messages[j].isRead
      && s.result == Some(s.store.messages[j])
      && Valid(s.store)
  {
    var s := MarkMessageAsRead(store, id);
    var i := FindById(store.messages, id).value;
    assert i == j;
    forall a, b | 0 <= a < b < |s.store.messages|
      ensures s.store.messages[a].id != s.store.messages[b].id
    {
      assert s.store.messages[a].id == store.messages[a].id;
      assert s.store.messages[b].id == store.messages[b].id;
    }
  }

  /** Bulk read-marking is idempotent. */
  lemma MarkManyIdempotent(store: Store, receiver: string, sender: string, id: string)
    ensures var s1 := MarkManyMessagesAsRead(store, receiver, sender, id);
      var s2 := MarkManyMessagesAsRead(s1.store, receiver, sender, id);
      s2 == s1
  {
    var s1 := MarkManyMessagesAsRead(store, receiver, sender, id);
    var s2 := MarkManyMessagesAsRead(s1.store, receiver, sender, id);
    assert s2.store.messages == s1.store.messages;
  }

  /** Bulk read-marking is directional: messages the receiver sent back to
      the sender, and messages of any other pair, are untouched. */
  lemma MarkManyIsDirectional(store: Store, receiver: string, sender: string, id: string, j: int)
    requires 0 <= j < |store.messages|
    requires store.messages[j].senderUsername != sender || store.messages[j].receiverUsername != receiver
    ensures MarkManyMessagesAsRead(store, receiver, sender, id).store.messages[j] == store.messages[j]
  {
  }

  /** After `markManyMessagesAsRead(receiver, sender, _)` every message of
      the pair's history that `sender` wrote is read, while the replies of
      `receiver` keep their read state. */
  lemma MarkManyReadsOneSideOfHistory(store: Store, receiver: string, sender: string, id: string)
    requires sender != receiver
    ensures var s := MarkManyMessagesAsRead(store, receiver, sender, id);
      && (forall m :: m in GetMessages(s.store, sender, receiver) && m.senderUsername == sender ==> m.isRead)
      && (forall m :: m in store.messages && m.senderUsername == receiver && m.receiverUsername == sender ==>
            m in GetMessages(s.store, sender, receiver))
  {
    var s := MarkManyMessagesAsRead(store, receiver, sender, id);
    forall m | m in store.messages && m.senderUsername == receiver && m.receiverUsername == sender
      ensures m in s.store.messages
    {
      var j :| 0 <= j < |store.messages| && store.messages[j] == m;
      assert s.store.messages[j] == m;
    }
  }

  /** Bulk read-marking keeps ids, so it keeps them unique. */
  lemma MarkManyKeepsIdsUnique(store: Store, receiver: string, sender: string, id: string)
    requires Valid(store)
    ensures Valid(MarkManyMessagesAsRead(store, receiver, sender, id).store)
  {
    var s := MarkManyMessagesAsRead(store, receiver, sender, id);
    forall a, b | 0 <= a < b < |s.store.messages|
      ensures s.store.messages[a].id != s.store.messages[b].id
    {
      assert s.store.messages[a].id == store.messages[a].id;
      assert s.store.messages[b].id == store.messages[b].id;
    }
  }
}

=== FILE: queries.dfy ===
/** The read-only lookups of the service: the symmetric pair lookup of
    conversations and the two ordered message histories. */
module Queries {
  import opened ChatModel
  import opened Seqs
  import opened History

  /** The `$or` pair predicate over conversation records. */
  function ConversationOfPair(a: string, b: string): Conversation -> bool {
    (c: Conversation) => BetweenPair(c.senderUsername, c.receiverUsername, a, b)
  }

  /** The `$or` pair predicate over messages. */
  function MessageOfPair(a: string, b: string): Message -> bool {
    (m: Message) => BetweenPair(m.senderUsername, m.receiverUsername, a, b)
  }

  function MessageOfConversation(cid: string): Message -> bool {
    (m: Message) => m.conversationId == cid
  }

  /** `getConversation`: every conversation record between the two users,
      whichever of them created it, each as often as it is stored. */
  function GetConversation(store: Store, sender: string, receiver: string): (r: seq<Conversation>)
    ensures forall c :: c in r <==>
      c in store.conversations && BetweenPair(c.senderUsername, c.receiverUsername, sender, receiver)
    ensures forall c ::
      multiset(r)[c] == (if BetweenPair(c.senderUsername, c.receiverUsername, sender, receiver)
        then multiset(store.conversations)[c] else 0)
  {
    Filter(store.conversations, ConversationOfPair(sender, receiver))
  }

  /** The lookup selects the same records whichever side is called the
      sender. The store fixes no order for the `$match` output, so the
      lemma speaks of the records, not of their order. */
  lemma GetConversationSymmetric(store: Store, a: string, b: string)
    ensures multiset(GetConversation(store, a, b)) == multiset(GetConversation(store, b, a))
  {
    var x := GetConversation(store, a, b);
    var y := GetConversation(store, b, a);
    assert forall c :: multiset(x)[c] == multiset(y)[c];
  }

  /** `getMessages`: the messages exchanged between the two users in
      either direction, oldest first. */
  function GetMessages(store: Store, sender: string, receiver: string): (r: seq<Message>)
    ensures SortedByCreatedAt(r)
    ensures forall m ::
      multiset(r)[m] == (if BetweenPair(m.senderUsername, m.receiverUsername, sender, receiver)
        then multiset(store.messages)[m] else 0)
    ensures forall m :: m in r <==>
      m in store.messages && BetweenPair(m.senderUsername, m.receiverUsername, sender, receiver)
  {
    var matched := Filter(store.messages, MessageOfPair(sender, receiver));
    var r := SortByCreatedAt(matched);
    assert forall m :: m in r <==> m in multiset(matched);
    r
  }

  /** Both argument orders give the same messages, each sorted oldest
      first. Messages with equal `createdAt` may come back in a different
      order on each call, so the lemma speaks of the messages, not of
      their order. */
  lemma GetMessagesSymmetric(store: Store, a: string, b: string)
    ensures multiset(GetMessages(store, a, b)) == multiset(GetMessages(store, b, a))
  {
    var x := GetMessages(store, a, b);
    var y := GetMessages(store, b, a);
    assert forall m :: multiset(x)[m] == multiset(y)[m];
  }

  /** `getUserMessages`: the messages of one conversation id, oldest
      first. */
  function GetUserMessages(store: Store, cid: string): (r: seq<Message>)
    ensures SortedByCreatedAt(r)
    ensures forall m ::
      multiset(r)[m] == (if m.conversationId == cid then multiset(store.messages)[m] else 0)
    ensures forall m :: m in r <==> m in store.messages && m.conversationId == cid
  {
    var matched := Filter(store.messages, MessageOfConversation(cid));
    var r := SortByCreatedAt(matched);
    assert forall m :: m in r <==> m in multiset(matched);
    r
  }
}

=== FILE: seqs.dfy ===
/** Sequence helpers shared by the store queries: the `$match` filter and
    the distinct keys that a `$group` stage produces. */
module Seqs {

  /** The elements of `s` that satisfy `p`, in their original order. */
  function Filter<T(!new)>(s: seq<T>, p: T -> bool): (r: seq<T>)
    ensures |r| <= |s|
    ensures forall x :: x in r <==> x in s && p(x)
    ensures forall x :: multiset(r)[x] == if p(x) then multiset(s)[x] else 0
  {
    if |s| == 0 then []
    else
      var rest := Filter(s[..|s| - 1], p);
      assert s == s[..|s| - 1] + [s[|s| - 1]];
      if p(s[|s| - 1]) then rest + [s[|s| - 1]] else rest
  }

  predicate NoDuplicates<T(==)>(s: seq<T>) {
    forall i, j :: 0 <= i < j < |s| ==> s[i] != s[j]
  }

  /** The distinct values of `key` over `s`, in order of last appearance. */
  function DistinctKeys<T(!new), K(==,!new)>(s: seq<T>, key: T -> K): (r: seq<K>)
    ensures NoDuplicates(r)
    ensures forall k :: k in r <==> exists x :: x in s && key(x) == k
  {
    if |s| == 0 then []
    else
      var rest := DistinctKeys(s[1..], key);
      assert forall x :: x in s[1..] ==> x in s;
      if key(s[0]) in rest then rest else [key(s[0])] + rest
  }

  /** A sequence without duplicates has as many elements as its set. */
  lemma {:induction false} NoDuplicatesCardinality<T>(s: seq<T>)
    requires NoDuplicates(s)
    ensures |set x | x in s| == |s|
  {
    if |s| > 0 {
      var rest := s[1..];
      assert NoDuplicates(rest);
      NoDuplicatesCardinality(rest);
      assert (set x | x in s) == (set x | x in rest) + {s[0]};
      assert s[0] !in rest;
    }
  }
}

=== FILE: service.dfy ===
/** The mutating operations of the message service. Each is a pure step
    from the old store to the new one, together with the fan-out events it
    appends (in order) and the value it returns. Store-assigned values
    (`_id`, `createdAt`) are parameters. */
module Service {
  import opened ChatModel
  import opened Notification

  /** `findOne({ _id: id })`: the first message in store order with that
      id, by position. */
  function FindById(ms: seq<Message>, id: string): (r: Option<nat>)
    ensures r.Some? ==> r.value < |ms| && ms[r.value].id == id
    ensures r.Some? ==> forall j :: 0 <= j < r.value ==> ms[j].id != id
    ensures r.None? <==> forall j :: 0 <= j < |ms| ==> ms[j].id != id
  {
    if |ms| == 0 then None
    else if ms[0].id == id then Some(0)
    else
      match FindById(ms[1..], id)
      case None => None
      case Some(k) => Some(k + 1)
  }

  /** The document a lookup by id returns, or null. */
  function Lookup(ms: seq<Message>, id: string): (r: Option<Message>)
    ensures r.Some? <==> exists j :: 0 <= j < |ms| && ms[j].id == id
    ensures r.Some? ==> r.value in ms && r.value.id == id
  {
    match FindById(ms, id)
    case Some(i) => Some(ms[i])
    case None => None
  }

  /** `createConversation`: stores one more conversation document, with the
      store-assigned `id`, without looking for an existing one for the same
      pair. */
  function CreateConversation(store: Store, id: string, conversationId: string, sender: string,
                              receiver: string, createdAt: int): (s: Step<()>)
    ensures s.store.messages == store.messages
    ensures |s.store.conversations| == |store.conversations| + 1
    ensures s.store.conversations[..|store.conversations|] == store.conversations
    ensures s.store.conversations[|store.conversations|].id == id
    ensures s.store.conversations[|store.conversations|].conversationId == conversationId
    ensures s.store.conversations[|store.conversations|].senderUsername == sender
    ensures s.store.conversations[|store.conversations|].receiverUsername == receiver
    ensures s.store.conversations[|store.conversations|].createdAt == createdAt
    ensures s.events == []
  {
    var c := Conversation(id, conversationId, sender, receiver, createdAt);
    Step(store.(conversations := store.conversations + [c]), [], ())
  }

  /** `MessageModel.create(data)`: the stored document. */
  function Persist(data: MessageData, id: string, createdAt: int): Message {
    Message(id, data.conversationId, data.senderUsername, data.senderPicture,
            data.receiverUsername, data.receiverPicture, data.body, data.file,
            data.gigId, data.sellerId, data.buyerId, data.hasOffer, data.offer,
            data.isRead, createdAt)
  }

  /** The client data a stored message was created from. */
  function DataOf(m: Message): MessageData {
    MessageData(m.conversationId, m.senderUsername, m.senderPicture,
                m.receiverUsername, m.receiverPicture, m.body, m.file,
                m.gigId, m.sellerId, m.buyerId, m.hasOffer, m.offer, m.isRead)
  }

  /** The notification publication for an offer. */
  function OfferPublication(data: MessageData, conv: Conversions): Event {
    Publish(OrderExchange, OrderEmailKey, OfferEmail(data, conv), OrderEmailLog)
  }

  /** `addMessage`: persist, then publish the offer e-mail when the data
      says it has an offer, then emit the stored message. */
  function AddMessage(store: Store, data: MessageData, id: string, createdAt: int,
                      conv: Conversions): (s: Step<Message>)
    ensures s.store.conversations == store.conversations
    ensures s.store.messages == store.messages + [s.result]
    ensures DataOf(s.result) == data && s.result.id == id && s.result.createdAt == createdAt
    ensures |s.events| == if data.hasOffer then 2 else 1
    ensures s.events[|s.events| - 1] == Emit(MessageReceived, Some(s.result))
    ensures data.hasOffer ==>
      && s.events[0].Publish?
      && s.events[0].exchange == OrderExchange
      && s.events[0].routingKey == OrderEmailKey
      && s.events[0].payload == OfferEmail(data, conv)
      && s.events[0].logMessage == OrderEmailLog
    ensures (exists e :: e in s.events && e.Publish?) <==> data.hasOffer
  {
    var m := Persist(data, id, createdAt);
    var publish := if data.hasOffer then [OfferPublication(data, conv)] else [];
    Step(store.(messages := store.messages + [m]), publish + [Emit(MessageReceived, Some(m))], m)
  }

  /** `$set: { "offer.<flag>": true }` on one document. On a message without
      an offer the update creates an offer that holds the flag alone. */
  function SetOfferFlag(m: Message, flag: OfferFlag): (r: Message)
    ensures r.(offer := m.offer) == m
    ensures r.offer.Some?
    ensures r.offer.value.accepted <==> flag == Accepted || (m.offer.Some? && m.offer.value.accepted)
    ensures r.offer.value.cancelled <==> flag == Cancelled || (m.offer.Some? && m.offer.value.cancelled)
    ensures m.offer.Some? ==> r.offer.value.(accepted := false, cancelled := false)
                              == m.offer.value.(accepted := false, cancelled := false)
    ensures m.offer.None? ==> r.offer.value.(accepted := false, cancelled := false) == EmptyOffer
  {
    var o := m.offer.ValueOr(EmptyOffer);
    var o' := match flag
      case Accepted => o.(accepted := true)
      case Cancelled => o.(cancelled := true);
    m.(offer := Some(o'))
  }

  /** `b` is `a` with at most the `flag` field of its offer changed (set),
      an absent offer reading as an empty one. */
  predicate OnlyFlagChanged(a: Message, b: Message, flag: OfferFlag) {
    && a.(offer := None) == b.(offer := None)
    && b.offer.Some?
    && var o := a.offer.ValueOr(EmptyOffer);
       match flag
       case Accepted => b.offer.value.(accepted := o.accepted) == o
       case Cancelled => b.offer.value.(cancelled := o.cancelled) == o
  }

  predicate FlagSet(m: Message, flag: OfferFlag) {
    m.offer.Some? &&
    match flag
    case Accepted => m.offer.value.accepted
    case Cancelled => m.offer.value.cancelled
  }

  /** `updateOffer`: `findOneAndUpdate` by id with `{ new: true }`; no
      event is appended. A missing id changes nothing and returns null. */
  function UpdateOffer(store: Store, id: string, flag: OfferFlag): (s: Step<Option<Message>>)
    ensures s.events == []
    ensures s.store.conversations == store.conversations
    ensures |s.store.messages| == |store.messages|
    ensures s.result.None? <==> forall j :: 0 <= j < |store.messages| ==> store.messages[j].id != id
    ensures s.result.None? ==> s.store == store
    ensures s.result.Some? ==>
      && s.result.value.id == id
      && s.result.value in s.store.messages
      && FlagSet(s.result.value, flag)
    ensures forall j :: 0 <= j < |store.messages| && store.messages[j].id != id ==>
      s.store.messages[j] == store.messages[j]
    ensures forall j :: 0 <= j < |store.messages| ==>
      s.store.messages[j] == store.messages[j]
      || OnlyFlagChanged(store.messages[j], s.store.messages[j], flag)
  {
    match FindById(store.messages, id)
    case None => Step(store, [], None)
    case Some(i) =>
      var m := SetOfferFlag(store.messages[i], flag);
      var ms := store.messages[i := m];
      assert ms[i] == m;
      Step(store.(messages := ms), [], Some(m))
  }

  /** `markMessageAsRead`: sets `isRead` on the document with that id and
      emits whatever the update returned, null included. */
  function MarkMessageAsRead(store: Store, id: string): (s: Step<Option<Message>>)
    ensures s.store.conversations == store.conversations
    ensures |s.store.messages| == |store.messages|
    ensures s.events == [Emit(MessageUpdated, s.result)]
    ensures s.result.None? <==> forall j :: 0 <= j < |store.messages| ==> store.messages[j].id != id
    ensures s.result.None? ==> s.store == store
    ensures s.result.Some? ==>
      && s.result.value.id == id
      && s.result.value.isRead
      && s.result.value in s.store.messages
    ensures forall j :: 0 <= j < |store.messages| && store.messages[j].id != id ==>
      s.store.messages[j] == store.messages[j]
    ensures forall j :: 0 <= j < |store.messages| ==>
      s.store.messages[j] == store.messages[j].(isRead := s.store.messages[j].isRead)
  {
    match FindById(store.messages, id)
    case None => Step(store, [Emit(MessageUpdated, None)], None)
    case Some(i) =>
      var m := store.messages[i].(isRead := true);
      var ms := store.messages[i := m];
      assert ms[i] == m;
      Step(store.(messages := ms), [Emit(MessageUpdated, Some(m))], Some(m))
  }

  /** The `updateMany` filter: unread, from `sender` to `receiver`. */
  predicate UnreadFromTo(m: Message, sender: string, receiver: string) {
    m.senderUsername == sender && m.receiverUsername == receiver && !m.isRead
  }

  /** One document under the `updateMany`: only `isRead` may change, and it
      ends up true when it was true or the message goes from `sender` to
      `receiver`. */
  function ReadIfUnreadFromTo(m: Message, sender: string, receiver: string): (r: Message)
    ensures r.(isRead := m.isRead) == m
    ensures r.isRead <==> m.isRead || (m.senderUsername == sender && m.receiverUsername == receiver)
  {
    if UnreadFromTo(m, sender, receiver) then m.(isRead := true) else m
  }

  /** `markManyMessagesAsRead(receiver, sender, id)`: marks read every
      unread message `sender` sent to `receiver` (one direction only),
      then looks up `id` in the updated store and emits the result. */
  function MarkManyMessagesAsRead(store: Store, receiver: string, sender: string, id: string)
    : (s: Step<Option<Message>>)
    ensures s.store.conversations == store.conversations
    ensures |s.store.messages| == |store.messages|
    ensures forall j :: 0 <= j < |store.messages| ==>
      s.store.messages[j] == store.messages[j].(isRead := s.store.messages[j].isRead)
    ensures forall j :: 0 <= j < |store.messages| ==>
      (s.store.messages[j].isRead <==>
        store.messages[j].isRead
        || (store.messages[j].senderUsername == sender && store.messages[j].receiverUsername == receiver))
    ensures s.result == Lookup(s.store.messages, id)
    ensures s.result.Some? ==> s.result.value.id == id && s.result.value in s.store.messages
    ensures s.result.Some? ==>
      (s.result.value.senderUsername == sender && s.result.value.receiverUsername == receiver ==>
         s.result.value.isRead)
    ensures s.events == [Emit(MessageUpdated, s.result)]
  {
    var ms := seq(|store.messages|, j requires 0 <= j < |store.messages| =>
      ReadIfUnreadFromTo(store.messages[j], sender, receiver));
    var found := Lookup(ms, id);
    Step(store.(messages := ms), [Emit(MessageUpdated, found)], found)
  }
}
